=== FILE: README.md ===
# Recorder row encoding

A Dafny model of the row-encoding layer of Home Assistant's recorder
(`homeassistant/components/recorder/db_schema.py`). This layer turns a native
event or state change into the database rows the recorder writes, and turns
those rows back into native objects:

- `Events.from_event` / `Events.to_native`: the `events` row. New rows keep
  binary context ids, a float fire time and an origin index, and leave the
  legacy text and datetime columns null.
- `States.from_event` / `States.to_native`: the `states` row. A
  `last_changed_ts` equal to `last_updated` is stored as null.
- `EventData.shared_data_bytes_from_event` / `to_native`: the shared JSON of
  an event's data.
- `StateAttributes.shared_attrs_bytes_from_event` / `to_native`: the shared
  JSON of a state's attributes. It drops excluded attributes, and it stores
  `{}` instead of an encoding longer than 16384 bytes.
- `EVENT_ORIGIN_ORDER` / `EVENT_ORIGIN_TO_IDX`: how an event origin is stored
  as a small integer.

Layout, one module per file:

- `wrappers.dfy` (`Wrappers`): `Option`, and `Outcome`, the result of a call
  that returns a value or raises an exception the converter does not catch.
- `native.dfy` (`Native`): events, states, contexts, origins, instants and
  `split_entity_id`'s domain.
- `helpers.dfy` (`Helpers`): the database dialect and the foreign helpers, as
  function-valued records. `JsonCodec` holds the JSON encoders and decoders;
  `IdCodec` holds the ULID/UUID byte converters.
- `origin.dfy` (`Origin`): the origin tables.
- `events.dfy`, `event_data.dfy`, `states.dfy`, `state_attributes.dfy`: one
  module per table class.

Modelling decisions:

- Rows are datatypes whose nullable columns are `Option`s.
- Timestamps are opaque integers. `ToTs` (utc_to_timestamp) has `FromTs`
  (utc_from_timestamp) as its inverse, so it is injective.
- Columns holding JSON text are modelled as the bytes of that text.
- The foreign helpers come from homeassistant/helpers/json.py,
  homeassistant/util/json.py and recorder/models.py. Those files are not part
  of this model, so the helpers are parameters, and every property holds for
  any functions supplied. Where a property needs the codec to behave, the
  lemma requires it: `RoundTrips` (decoding an encoded object gives it back)
  and `DecodesEmptyObject`.
- Exceptions that escape a converter are `Raised` outcomes:
  - `KeyError` for a missing `entity_id` in the event data, or for an entity
    source entry without `"domain"`;
  - `ValueError` for an unknown legacy origin string;
  - `IndexError` for an origin index outside the list. Python's negative
    indices are kept, so `-1` reads as remote;
  - `InvalidEntityFormatError` from the State constructor, when validation
    is on and the entity id is rejected;
  - `ValueError` from the State constructor, when the lower-cased entity id
    has no dot to split into domain and object id.

  JSON decode errors are caught by the source. There they give `None`
  (`Events`, `States`) or `{}` (`EventData`, `StateAttributes`).
- As in the source, both `to_native` methods read the user id from the text
  column `context_user_id`. But `from_event` writes only
  `context_user_id_bin` and nulls the text column, so the user id does not
  survive a write and read back (`EventsTable.UserIdLost`,
  `StatesTable.UserIdLost`). The model keeps this behaviour.

## Model

| member | source | states |
|---|---|---|
| `Origin.IndexMap` | homeassistant/components/recorder/db_schema.py:172 | the enumerate comprehension maps each element of the list to the last position holding it, and has exactly the list's elements as keys |
| `Origin.OriginIndexInverse` | homeassistant/components/recorder/db_schema.py:171-172 | `EVENT_ORIGIN_TO_IDX` is `{local: 0, remote: 1}` and is the inverse of `EVENT_ORIGIN_ORDER` in both directions |
| `Origin.NativeOrigin` | homeassistant/components/recorder/db_schema.py:284-286 | a non-empty origin text is parsed (an unknown one raises ValueError); otherwise the origin is `EVENT_ORIGIN_ORDER[origin_idx or 0]`, a null index reads as local, and an index outside -2..1 raises IndexError |
| `Origin.OriginRoundTrip` | homeassistant/components/recorder/db_schema.py:259-286 | the origin index stored for an origin reads back as that origin |
| `Native.ToTs` | homeassistant/components/recorder/db_schema.py:264 | converting an instant to a timestamp loses nothing: the timestamp converts back to the same instant |
| `Native.ParseOrigin` | homeassistant/components/recorder/db_schema.py:284 | `EventOrigin(text)` finds the member whose value is the text, and fails exactly when no member has that value |
| `Native.Domain` | homeassistant/components/recorder/db_schema.py:544 | an entity id's domain is the prefix before its first dot: a prefix with no dot, followed by a dot unless it is the whole id |
| `Native.DomainOfEntityId` | homeassistant/components/recorder/db_schema.py:544 | the domain of `domain.object_id` is `domain` whenever `domain` has no dot |
| `Native.NewNativeState` | homeassistant/components/recorder/db_schema.py:500-510 | the State constructor raises InvalidEntityFormatError when validation is on and rejects the entity id; otherwise it raises ValueError exactly when the lower-cased entity id has no dot to split into domain and object id; a state it builds has the lower-cased entity id, the state stringified (a null state becomes `"None"`), and the other values it was given |
| `EventsTable.FromEvent` | homeassistant/components/recorder/db_schema.py:257-271 | all legacy columns (event_type, event_data, origin, time_fired and the three text context ids) are null; the origin index is the event origin's position in `EVENT_ORIGIN_ORDER` (so 0 for local and 1 for remote, by `Origin.OriginIndexInverse`) and reads back as the event's origin; the fire timestamp reads back as the fire time; the binary context ids are the converters' bytes |
| `EventsTable.ToNative` | homeassistant/components/recorder/db_schema.py:273-293 | a decode failure of event_data gives None (and only that does); a bad origin raises; otherwise it returns the event type or `""`, the decoded data or `{}` when the column is null or empty, the stored origin, the fire time or time 0, and the context from the binary ids and the text user id |
| `EventsTable.RoundTrip` | homeassistant/components/recorder/db_schema.py:257-293 | writing an event and reading it back gives its origin and fire time, context ids passed through the byte converters, an empty type and empty data |
| `EventsTable.UserIdLost` | homeassistant/components/recorder/db_schema.py:266-277 | the user id is stored only in the binary column, and it reads back as None |
| `EventDataTable.SharedDataBytesFromEvent` | homeassistant/components/recorder/db_schema.py:317-323 | event data is encoded with the strip-null encoder exactly on PostgreSQL, and with the plain encoder otherwise |
| `EventDataTable.ToNative` | homeassistant/components/recorder/db_schema.py:331-340 | a null column or a decode failure gives `{}`; otherwise it gives the decoded value |
| `EventDataTable.RoundTrip` | homeassistant/components/recorder/db_schema.py:317-340 | plain JSON event data reads back unchanged on any dialect except PostgreSQL, for a codec that round-trips |
| `StatesTable.CompressLastChanged` | homeassistant/components/recorder/db_schema.py:472-476 | last_changed_ts is null exactly when last_changed equals last_updated, and otherwise holds last_changed |
| `StatesTable.ExpandTimes` | homeassistant/components/recorder/db_schema.py:493-499 | last_updated is last_updated_ts, or time 0 when that is null; last_changed is the stored last_changed_ts when there is one, and last_updated otherwise |
| `StatesTable.LastChangedRoundTrip` | homeassistant/components/recorder/db_schema.py:472-499 | every (last_changed, last_updated) pair reads back as written |
| `StatesTable.FromEvent` | homeassistant/components/recorder/db_schema.py:447-478 | it raises KeyError exactly when the data has no entity_id; it nulls all legacy columns (attributes, last_updated, last_changed and the three text context ids); it keeps the entity id; the origin index is the event origin's position in `EVENT_ORIGIN_ORDER` (0 for local, 1 for remote) and reads back as that origin; a removed state gives state `""`, the fire time and a null last_changed_ts; otherwise it gives the new state's state and last_updated, with last_changed compressed |
| `StatesTable.ToNative` | homeassistant/components/recorder/db_schema.py:480-510 | a decode failure of the legacy attributes gives None (and only that does); a rejected entity id, or an entity id without a dot once lower-cased (including the `""` read for a null column), raises; otherwise it gives the entity id (or `""`) lower-cased, the state (a null column reads as `"None"`), the decoded attributes or `{}`, the expanded times and the row's context |
| `StatesTable.RoundTrip` | homeassistant/components/recorder/db_schema.py:447-510 | writing a state change and reading it back gives the event data's `entity_id` lower-cased, the new state's state, last_changed and last_updated, and empty attributes; stated for either setting of `validate_entity_id`, for entity ids the State constructor accepts (a dot once lower-cased, and valid when validation is on) |
| `StatesTable.RemovedRoundTrip` | homeassistant/components/recorder/db_schema.py:464-499 | a removed state reads back as state `""`, changed and updated at the event's fire time, for entity ids the State constructor accepts |
| `StatesTable.UserIdLost` | homeassistant/components/recorder/db_schema.py:456-484 | the state's user id is stored only in the binary column, and it reads back as None, for entity ids the State constructor accepts |
| `StateAttributesTable.ExcludedAttrs` | homeassistant/components/recorder/db_schema.py:544-551 | the excluded keys are exactly the global excludes, plus the excludes for the entity-id domain, plus the excludes for the source integration's domain when the entity has a non-empty source entry; an entry without "domain" raises KeyError |
| `StateAttributesTable.ExcludedValueIrrelevant` | homeassistant/components/recorder/db_schema.py:544-555 | giving an excluded attribute any value in the new state never changes the stored bytes |
| `StateAttributesTable.SharedAttrsBytesFromEvent` | homeassistant/components/recorder/db_schema.py:533-565 | a removed state gives `{}`; the result is never longer than 16384 bytes; it is the dialect's encoding of the kept attributes when that fits, and `{}` when it does not; it raises only when the exclusion lookup raises |
| `StateAttributesTable.ToNative` | homeassistant/components/recorder/db_schema.py:573-583 | a null column or a decode failure gives `{}`; otherwise it gives the decoded value |
| `StateAttributesTable.RoundTrip` | homeassistant/components/recorder/db_schema.py:533-583 | for attributes whose values are plain JSON, stored attributes read back as exactly the kept attributes, or as `{}` when the encoding is over the cap or the state was removed (any dialect except PostgreSQL, codec that round-trips) |
| `StateAttributesTable.DomainExclusion` | tests/components/siren/test_recorder.py:32-35 | an attribute the entity's domain excludes is not stored, and an attribute nothing excludes (such as friendly_name) is stored with its value |

## Left out

- The JSON encoders and decoders, the ULID/UUID byte converters and `fnv1a_32` are parameters, not definitions: homeassistant/helpers/json.py, homeassistant/util/json.py, recorder/models.py and the fnvhash package are not part of this model.
- `hash_shared_data_bytes` and `hash_shared_attrs_bytes` are not modelled. They only apply the foreign `fnv1a_32` hash behind an `lru_cache`.
- Key order is not modelled. The encoders see event data and attributes as maps, that is, as sets of key-value pairs. `json_bytes` writes keys in the dict's insertion order, so in the program the same attributes inserted in another order give different bytes, a different hash and a different shared row. In the model they always give the same bytes.
- `json_loads_object` rejecting a document that is not an object raises a ValueError the converters do not catch. The model folds that helper into `loadsObject`, whose None is only the caught decode error.
- `ALL_DOMAIN_EXCLUDE_ATTRS` is a parameter (`allDomainExclude`), because recorder/const.py is not part of this model.
- `split_entity_id` is modelled as "the text before the first dot". Any rejection of malformed ids inside it is not modelled, because homeassistant/core.py is not part of this model.
- Native.NewNativeState: the State constructor's entity-id check and `str.lower` are parameters (`EntityIdRules`). Its split of the entity id into domain and object id is modelled only as "raises a ValueError when there is no dot". Its maximum state length check is not modelled. homeassistant/core.py is not part of this model.
- Float timestamps, datetime conversion and its precision, the isotime properties and `__repr__` are not modelled: timestamps are opaque integers.
- The SQLAlchemy declarations are not modelled, since they have no behaviour to state: column types, indexes, `__table_args__`, dialect variants, `FAST_PYSQLITE_DATETIME`, `JSONLiteral` and the JSON cast expressions.
- The statistics classes (`from_stats`, `from_stats_ts`, `StatisticsMeta.from_meta`) and `RecorderRuns.to_native`, which returns its own row, are not modelled.
- Logging on decode failures and oversize attributes is not modelled.
- The schema migration engine, the write queue, the rewrite tasks and corruption recovery are not part of this model. Their code (migration.py, core.py, tasks.py) is not available.
- StateAttributesTable.RoundTrip: attribute values are modelled as JSON values only. In the program, attributes may hold values that are not JSON, such as datetimes, sets or enums. `json_bytes` encodes these as strings or lists, so they do not read back unchanged.
- EventDataTable.RoundTrip and StateAttributesTable.RoundTrip are stated for dialects other than PostgreSQL only. The strip-null encoder cuts strings off at their first NUL character (U+0000), so strings containing NUL characters do not round-trip.

=== FILE: event_data.dfy ===
/** The `event_data` table row and its conversions (class EventData). */
module EventDataTable {
  import opened Wrappers
  import opened Native
  import opened Helpers

  /** An `event_data` row: the JSON of an event's data, shared between events. */
  datatype EventData = EventData(dataId: Option<int>, hash: Option<int>, sharedData: Option<Bytes>)

  /** EventData.shared_data_bytes_from_event: the strip-null encoder exactly on PostgreSQL. */
  function SharedDataBytesFromEvent(e: Event, dialect: Option<Dialect>, c: JsonCodec): (b: Bytes)
    ensures dialect == Some(PostgreSQL) ==> b == c.dumpsStripNull(e.data)
    ensures dialect != Some(PostgreSQL) ==> b == c.dumps(e.data)
  {
    Encode(c, dialect, e.data)
  }

  /** EventData.to_native: the decoded data, or `{}` when there is none or it fails to decode. */
  function ToNative(row: EventData, c: JsonCodec): (r: JsonValue)
    ensures row.sharedData.None? ==> r == JObject(map[])
    ensures row.sharedData.Some? && c.loads(row.sharedData.value).None? ==> r == JObject(map[])
    ensures row.sharedData.Some? && c.loads(row.sharedData.value).Some? ==> r == c.loads(row.sharedData.value).value
  {
    match row.sharedData
    case None => JObject(map[])
    case Some(shared) =>
      match c.loads(shared)
      case None => JObject(map[])
      case Some(v) => v
  }

  /** Event data that is plain JSON reads back unchanged off any dialect but PostgreSQL. */
  lemma RoundTrip(e: Event, m: JsonObject, dialect: Option<Dialect>, c: JsonCodec)
    requires e.data == AsData(m)
    requires RoundTrips(c)
    requires dialect != Some(PostgreSQL)
    ensures ToNative(EventData(None, None, Some(SharedDataBytesFromEvent(e, dialect, c))), c) == JObject(m)
  {
    assert c.loads(c.dumps(AsData(m))) == Some(JObject(m));
  }
}

=== FILE: events.dfy ===
/** The `events` table row and its conversions (class Events). */
module EventsTable {
  import opened Wrappers
  import opened Native
  import opened Helpers
  import opened Origin

  /**
   * An `events` row. The text columns event_type, origin, context_id,
   * context_user_id and context_parent_id, and the datetime time_fired, are
   * legacy: new rows leave them null.
   */
  datatype Events = Events(
    eventId: Option<int>,
    eventType: Option<string>,
    eventData: Option<Bytes>,
    origin: Option<string>,
    originIdx: Option<int>,
    timeFired: Option<Instant>,
    timeFiredTs: Option<Timestamp>,
    contextId: Option<string>,
    contextUserId: Option<string>,
    contextParentId: Option<string>,
    dataId: Option<int>,
    contextIdBin: Option<Bytes>,
    contextUserIdBin: Option<Bytes>,
    contextParentIdBin: Option<Bytes>,
    eventTypeId: Option<int>)

  /** Every legacy column of the row is null. */
  predicate LegacyColumnsNull(row: Events) {
    && row.eventType.None?
    && row.eventData.None?
    && row.origin.None?
    && row.timeFired.None?
    && row.contextId.None?
    && row.contextUserId.None?
    && row.contextParentId.None?
  }

  /** Events.from_event: the row that records a native event. */
  function FromEvent(e: Event, ids: IdCodec): (row: Events)
    ensures LegacyColumnsNull(row)
    // keys are assigned by the database and the recorder later
    ensures row.eventId.None? && row.dataId.None? && row.eventTypeId.None?
    ensures NativeOrigin(row.origin, row.originIdx) == Returned(e.origin)
    ensures row.originIdx.Some? && 0 <= row.originIdx.value < |EventOriginOrder|
    ensures EventOriginOrder[row.originIdx.value] == e.origin
    ensures row.timeFiredTs.Some? && FromTs(row.timeFiredTs.value) == e.timeFired
    ensures row.contextIdBin == ids.ulidToBytes(e.context.id)
    ensures row.contextUserIdBin == ids.uuidHexToBytes(e.context.userId)
    ensures row.contextParentIdBin == ids.ulidToBytes(e.context.parentId)
  {
    OriginRoundTrip(e.origin);
    Events(
      eventId := None,
      eventType := None,
      eventData := None,
      origin := None,
      originIdx := OriginIdx(e.origin),
      timeFired := None,
      timeFiredTs := Some(ToTs(e.timeFired)),
      contextId := None,
      contextUserId := None,
      contextParentId := None,
      dataId := None,
      contextIdBin := ids.ulidToBytes(e.context.id),
      contextUserIdBin := ids.uuidHexToBytes(e.context.userId),
      contextParentIdBin := ids.ulidToBytes(e.context.parentId),
      eventTypeId := None)
  }

  /** The row's event_data is present, non-empty and fails to decode. */
  predicate DataUndecodable(row: Events, c: JsonCodec) {
    row.eventData.Some? && row.eventData.value != [] && c.loadsObject(row.eventData.value).None?
  }

  /**
   * Events.to_native: the native event a row stands for. A decode failure of
   * event_data is caught and gives None; an unknown origin text or an origin
   * index out of range raises.
   */
  function ToNative(row: Events, c: JsonCodec, ids: IdCodec): (r: Outcome<Option<Event>>)
    ensures r == Returned(None) <==> DataUndecodable(row, c)
    ensures r.Raised? <==> !DataUndecodable(row, c) && NativeOrigin(row.origin, row.originIdx).Raised?
    ensures r.Returned? && r.value.Some? ==>
      var ev := r.value.value;
      && ev.eventType == (if row.eventType.Some? then row.eventType.value else "")
      && (row.eventData.None? || row.eventData.value == [] ==> ev.data == map[])
      && (row.eventData.Some? && row.eventData.value != [] ==>
            c.loadsObject(row.eventData.value).Some? && ev.data == AsData(c.loadsObject(row.eventData.value).value))
      && NativeOrigin(row.origin, row.originIdx) == Returned(ev.origin)
      && ev.timeFired == (if row.timeFiredTs.Some? then FromTs(row.timeFiredTs.value) else FromTs(0))
      && ev.context.id == ids.bytesToUlid(row.contextIdBin)
      && ev.context.userId == ids.bytesToUuidHex(row.contextUserId)
      && ev.context.parentId == ids.bytesToUlid(row.contextParentIdBin)
  {
    var context := RowContext(ids, row.contextIdBin, row.contextUserId, row.contextParentIdBin);
    match DecodeObjectColumn(c, row.eventData)
    case None => Returned(None)
    case Some(data) =>
      match NativeOrigin(row.origin, row.originIdx)
      case Raised(err) => Raised(err)
      case Returned(o) =>
        Returned(Some(Event(row.eventType.GetOr(""), AsData(data), o, FromTs(row.timeFiredTs.GetOr(0)), context)))
  }

  /**
   * Writing an event and reading the row back gives the same origin, fire
   * time and context ids (through the byte converters), an empty event type
   * and empty data (both live in other tables), and a user id read from the
   * text column the write left null.
   */
  lemma RoundTrip(e: Event, c: JsonCodec, ids: IdCodec)
    ensures ToNative(FromEvent(e, ids), c, ids) == Returned(Some(Event(
      "", map[], e.origin, e.timeFired,
      Context(ids.bytesToUlid(ids.ulidToBytes(e.context.id)),
              ids.bytesToUuidHex(None),
              ids.bytesToUlid(ids.ulidToBytes(e.context.parentId))))))
  {
    var row := FromEvent(e, ids);
    assert AsData(map[]) == map[];
  }

  /**
   * The user id does not survive the round trip: from_event stores it only in
   * context_user_id_bin, while to_native reads the text column context_user_id.
   */
  lemma UserIdLost(e: Event, c: JsonCodec, ids: IdCodec)
    requires ids.bytesToUuidHex(None) == None
    ensures FromEvent(e, ids).contextUserIdBin == ids.uuidHexToBytes(e.context.userId)
    ensures var r := ToNative(FromEvent(e, ids), c, ids);
      r.Returned? && r.value.Some? && r.value.value.context.userId == None
  {
    RoundTrip(e, c, ids);
  }
}

=== FILE: helpers.dfy ===
/**
 * The collaborators the row conversions call but that are not part of this
 * model: the JSON encoders and decoders of homeassistant/helpers/json.py and
 * homeassistant/util/json.py, and the ULID/UUID byte converters of
 * recorder/models.py. Each is a function-valued field, so every property below
 * holds for whatever those functions compute, unless a lemma says what it needs.
 */
module Helpers {
  import opened Wrappers
  import opened Native

  /** The database dialects the recorder distinguishes. */
  datatype Dialect = MySQL | PostgreSQL | SQLite

  datatype JsonCodec = JsonCodec(
    dumps: map<string, DataValue> -> Bytes,           // json_bytes
    dumpsStripNull: map<string, DataValue> -> Bytes,  // json_bytes_strip_null
    loads: Bytes -> Option<JsonValue>,                // json_loads; None is a decode error
    loadsObject: Bytes -> Option<JsonObject>)         // json_loads_object; None is a decode error

  datatype IdCodec = IdCodec(
    ulidToBytes: Option<string> -> Option<Bytes>,     // ulid_to_bytes_or_none
    uuidHexToBytes: Option<string> -> Option<Bytes>,  // uuid_hex_to_bytes_or_none
    bytesToUlid: Option<Bytes> -> Option<string>,     // bytes_to_ulid_or_none
    // bytes_to_uuid_hex_or_none, as both to_native methods call it: on the
    // legacy text column context_user_id
    bytesToUuidHex: Option<string> -> Option<string>)

  /** The strip-null encoder is used exactly on PostgreSQL. */
  predicate StripsNull(dialect: Option<Dialect>) {
    dialect == Some(PostgreSQL)
  }

  /** The encoder the dialect selects, applied to `data`. */
  function Encode(c: JsonCodec, dialect: Option<Dialect>, data: map<string, DataValue>): Bytes {
    if StripsNull(dialect) then c.dumpsStripNull(data) else c.dumps(data)
  }

  /** b"{}" */
  const EmptyObjectBytes: Bytes := [0x7B, 0x7D]

  /** The plain encoder and both decoders agree on every JSON object. */
  ghost predicate RoundTrips(c: JsonCodec) {
    forall m: JsonObject {:trigger c.dumps(AsData(m))} ::
      && c.loads(c.dumps(AsData(m))) == Some(JObject(m))
      && c.loadsObject(c.dumps(AsData(m))) == Some(m)
  }

  /** json_loads(b"{}") is the empty object. */
  predicate DecodesEmptyObject(c: JsonCodec) {
    c.loads(EmptyObjectBytes) == Some(JObject(map[]))
  }

  /** The Context both to_native methods build from a row's context columns. */
  function RowContext(ids: IdCodec, idBin: Option<Bytes>, userIdText: Option<string>, parentIdBin: Option<Bytes>): Context {
    Context(ids.bytesToUlid(idBin), ids.bytesToUuidHex(userIdText), ids.bytesToUlid(parentIdBin))
  }

  /** `json_loads_object(col) if col else {}`: None is the caught decode error. */
  function DecodeObjectColumn(c: JsonCodec, col: Option<Bytes>): Option<JsonObject> {
    if col.None? || col.value == [] then Some(map[]) else c.loadsObject(col.value)
  }
}

=== FILE: native.dfy ===
/**
 * The native (in-memory) entities the recorder converts to and from rows:
 * events, states, contexts, event origins and timestamps. They are defined in
 * homeassistant/core.py, which is not part of this model; only the parts the
 * row conversions read or build are kept here.
 */
module Native {
  import opened Wrappers

  type Bytes = seq<bv8>

  /** A decoded JSON document. The converters never look inside values. */
  datatype JsonValue =
    | JNull
    | JBool(b: bool)
    | JNumber(n: int)
    | JString(s: string)
    | JArray(items: seq<JsonValue>)
    | JObject(fields: map<string, JsonValue>)

  type JsonObject = map<string, JsonValue>

  /** A timezone-aware point in time, identified by an opaque count. */
  datatype Instant = Instant(ticks: int)

  /** The value of a `*_ts` column. */
  type Timestamp = int

  /** utc_to_timestamp: the stored form of an instant; it loses nothing. */
  function ToTs(t: Instant): (ts: Timestamp)
    ensures FromTs(ts) == t
  {
    t.ticks
  }

  /** utc_from_timestamp: the instant a stored timestamp denotes. */
  function FromTs(ts: Timestamp): Instant {
    Instant(ts)
  }

  /** Where an event was fired: in this instance or in a remote one. */
  datatype EventOrigin = Local | Remote

  /** The string value of each EventOrigin member. */
  function OriginValue(o: EventOrigin): string {
    match o
    case Local => "LOCAL"
    case Remote => "REMOTE"
  }

  /** EventOrigin(s): the member whose value is `s`; None stands for the ValueError. */
  function ParseOrigin(s: string): (r: Option<EventOrigin>)
    ensures r.Some? ==> OriginValue(r.value) == s
    ensures r.None? ==> forall o :: OriginValue(o) != s
  {
    if s == "LOCAL" then Some(Local)
    else if s == "REMOTE" then Some(Remote)
    else None
  }

  datatype Context = Context(id: Option<string>, userId: Option<string>, parentId: Option<string>)

  datatype State = State(
    entityId: string,
    state: string,
    attributes: JsonObject,
    lastChanged: Instant,
    lastUpdated: Instant,
    context: Context)

  /** A value held in an event's data: plain JSON, or a State object (state_changed events). */
  datatype DataValue = JsonData(json: JsonValue) | StateData(state: State)

  datatype Event = Event(
    eventType: string,
    data: map<string, DataValue>,
    origin: EventOrigin,
    timeFired: Instant,
    context: Context)

  /** A decoded JSON object used as event data. */
  function AsData(m: JsonObject): map<string, DataValue> {
    map k | k in m :: JsonData(m[k])
  }

  /** `new_state` in a state_changed event's data is a State or None, as the source annotates it. */
  predicate NewStateWellTyped(data: map<string, DataValue>) {
    "new_state" in data ==> data["new_state"].StateData? || data["new_state"] == JsonData(JNull)
  }

  /** A state_changed event's data: `entity_id`, when present, is a string. */
  predicate StateChangedWellTyped(data: map<string, DataValue>) {
    && NewStateWellTyped(data)
    && ("entity_id" in data ==> data["entity_id"].JsonData? && data["entity_id"].json.JString?)
  }

  /** event.data.get("new_state"): None when the key is missing or holds None. */
  function NewState(data: map<string, DataValue>): Option<State> {
    if "new_state" in data && data["new_state"].StateData? then Some(data["new_state"].state) else None
  }

  /** split_entity_id(entity_id)[0]: the text before the first dot. */
  function Domain(entityId: string): (d: string)
    ensures d <= entityId
    ensures '.' !in d
    ensures |d| < |entityId| ==> entityId[|d|] == '.'
  {
    if entityId == [] || entityId[0] == '.' then []
    else [entityId[0]] + Domain(entityId[1..])
  }

  /** The domain of `domain.object_id` is `domain` whenever `domain` holds no dot. */
  lemma {:induction false} DomainOfEntityId(domain: string, objectId: string)
    requires '.' !in domain
    ensures Domain(domain + "." + objectId) == domain
  {
    if domain != [] {
      assert (domain + "." + objectId)[1..] == domain[1..] + "." + objectId;
      DomainOfEntityId(domain[1..], objectId);
    }
  }

  /**
   * The entity-id helpers the State constructor uses: valid_entity_id and
   * str.lower. homeassistant/core.py is not part of this model.
   */
  datatype EntityIdRules = EntityIdRules(valid: string -> bool, lower: string -> string)

  /** `str(state)`: a missing (None) state becomes the text "None". */
  function StateText(state: Option<string>): string {
    if state.Some? then state.value else "None"
  }

  /**
   * The State constructor as the converters reach it. With validation on, an
   * entity id the validator rejects raises. The state is stringified, so a
   * missing (None) state becomes "None". The entity id is stored lower-cased,
   * and splitting it into domain and object id raises a ValueError when it
   * has no dot, validation or not.
   */
  function NewNativeState(
    validate: bool, rules: EntityIdRules,
    entityId: string, state: Option<string>, attributes: JsonObject,
    lastChanged: Instant, lastUpdated: Instant, context: Context): (r: Outcome<State>)
    ensures r.Returned? <==> (!validate || rules.valid(entityId)) && '.' in rules.lower(entityId)
    ensures r.Raised? && (!validate || rules.valid(entityId)) ==> r.error == ValueError
    ensures r.Raised? && validate && !rules.valid(entityId) ==> r.error == InvalidEntityFormatError
    ensures r.Returned? ==>
      && r.value.entityId == rules.lower(entityId)
      && (state.Some? ==> r.value.state == state.value)
      && (state.None? ==> r.value.state == "None")
      && r.value.attributes == attributes
      && r.value.lastChanged == lastChanged
      && r.value.lastUpdated == lastUpdated
      && r.value.context == context
  {
    if validate && !rules.valid(entityId) then Raised(InvalidEntityFormatError)
    else
      var lowered := rules.lower(entityId);
      if '.' !in lowered then Raised(ValueError)
      else Returned(State(lowered, StateText(state), attributes, lastChanged, lastUpdated, context))
  }
}

=== FILE: origin.dfy ===
/** EVENT_ORIGIN_ORDER and EVENT_ORIGIN_TO_IDX, and how a row's origin columns are read back. */
module Origin {
  import opened Wrappers
  import opened Native

  /** The stored index of an origin is its position here. */
  const EventOriginOrder: seq<EventOrigin> := [Local, Remote]

  /**
   * `{x: i for i, x in enumerate(s)}`: every element of `s` mapped to a
   * position it holds (the last one, since later pairs overwrite earlier ones).
   */
  function IndexMap<T>(s: seq<T>): (m: map<T, int>)
    ensures m.Keys == set x | x in s
    ensures forall x :: x in m ==> 0 <= m[x] < |s| && s[m[x]] == x
    ensures forall x, j :: x in m && m[x] < j < |s| ==> s[j] != x
  {
    if s == [] then map[] else IndexMap(s[..|s| - 1])[s[|s| - 1] := |s| - 1]
  }

  /** Each origin mapped to its position in EventOriginOrder. */
  const EventOriginToIdx: map<EventOrigin, int> := IndexMap(EventOriginOrder)

  /** EVENT_ORIGIN_TO_IDX.get(origin) */
  function OriginIdx(o: EventOrigin): Option<int> {
    if o in EventOriginToIdx then Some(EventOriginToIdx[o]) else None
  }

  /** Python's `s[i]`: a negative index counts from the end; any other miss raises IndexError. */
  function ListAt<T>(s: seq<T>, i: int): Outcome<T> {
    if 0 <= i < |s| then Returned(s[i])
    else if -|s| <= i < 0 then Returned(s[|s| + i])
    else Raised(IndexError)
  }

  /**
   * The origin Events.to_native reports: the legacy `origin` text when it is
   * non-empty, otherwise EVENT_ORIGIN_ORDER[origin_idx or 0].
   */
  function NativeOrigin(origin: Option<string>, originIdx: Option<int>): (r: Outcome<EventOrigin>)
    ensures origin.Some? && origin.value != "" ==>
      (r.Returned? <==> ParseOrigin(origin.value).Some?) &&
      (r.Returned? ==> OriginValue(r.value) == origin.value) &&
      (r.Raised? ==> r.error == ValueError)
    ensures (origin.None? || origin.value == "") ==>
      (r.Returned? <==> -2 <= originIdx.GetOr(0) < 2) &&
      (r.Raised? ==> r.error == IndexError)
    ensures (origin.None? || origin.value == "") && originIdx.None? ==> r == Returned(Local)
    ensures (origin.None? || origin.value == "") && r.Returned? ==>
      OriginIdx(r.value) == Some(originIdx.GetOr(0) % 2)
  {
    OriginIndexInverse();
    if origin.Some? && origin.value != "" then
      match ParseOrigin(origin.value)
      case Some(o) => Returned(o)
      case None => Raised(ValueError)
    else
      ListAt(EventOriginOrder, originIdx.GetOr(0))
  }

  /** EVENT_ORIGIN_TO_IDX is the inverse of EVENT_ORIGIN_ORDER: local is 0, remote is 1. */
  lemma OriginIndexInverse()
    ensures EventOriginToIdx == map[Local := 0, Remote := 1]
    ensures forall o :: OriginIdx(o).Some? && EventOriginOrder[OriginIdx(o).value] == o
    ensures forall i :: 0 <= i < |EventOriginOrder| ==> OriginIdx(EventOriginOrder[i]) == Some(i)
  {
    assert EventOriginOrder[0] == Local && EventOriginOrder[1] == Remote;
    assert Local in EventOriginToIdx && Remote in EventOriginToIdx;
    forall o ensures OriginIdx(o).Some? && EventOriginOrder[OriginIdx(o).value] == o {
      assert o == Local || o == Remote;
    }
  }

  /** A row written with only an origin index reads back the origin it was written from. */
  lemma OriginRoundTrip(o: EventOrigin)
    ensures NativeOrigin(None, OriginIdx(o)) == Returned(o)
  {
    OriginIndexInverse();
  }
}

=== FILE: state_attributes.dfy ===
/** The `state_attributes` table row and its conversions (class StateAttributes). */
module StateAttributesTable {
  import opened Wrappers
  import opened Native
  import opened Helpers

  /** A `state_attributes` row: the JSON of a state's attributes, shared between states. */
  datatype StateAttributes = StateAttributes(attributesId: Option<int>, hash: Option<int>, sharedAttrs: Option<Bytes>)

  /** Encoded attributes longer than this are not stored. */
  const MaxStateAttrsBytes: nat := 16384

  /** `d.get(key)` on a map of sets, where a missing key and an empty set both add nothing. */
  function SetOrEmpty(m: map<string, set<string>>, key: string): set<string> {
    if key in m then m[key] else {}
  }

  /**
   * The attributes not recorded for an entity: the global excludes, those of
   * its entity-id domain, and those of the integration that provides it when
   * the entity has a (non-empty) entry in `entitySources`. An entry without
   * a "domain" key raises KeyError.
   */
  function ExcludedAttrs(
    entityId: string,
    entitySources: map<string, map<string, string>>,
    excludeByDomain: map<string, set<string>>,
    allDomainExclude: set<string>): (r: Outcome<set<string>>)
    ensures r.Raised? <==>
      entityId in entitySources && entitySources[entityId] != map[] && "domain" !in entitySources[entityId]
    ensures r.Raised? ==> r.error == KeyError("domain")
    ensures r.Returned? ==> forall k ::
      k in r.value <==>
        || k in allDomainExclude
        || (Domain(entityId) in excludeByDomain && k in excludeByDomain[Domain(entityId)])
        || (&& entityId in entitySources
            && entitySources[entityId] != map[]
            && entitySources[entityId]["domain"] in excludeByDomain
            && k in excludeByDomain[entitySources[entityId]["domain"]])
  {
    var excluded := allDomainExclude + SetOrEmpty(excludeByDomain, Domain(entityId));
    if entityId in entitySources && entitySources[entityId] != map[] then
      var entityInfo := entitySources[entityId];
      if "domain" !in entityInfo then Raised(KeyError("domain"))
      else Returned(excluded + SetOrEmpty(excludeByDomain, entityInfo["domain"]))
    else
      Returned(excluded)
  }

  /** `{k: v for k, v in attributes.items() if k not in exclude}` */
  function KeptAttributes(attributes: JsonObject, exclude: set<string>): JsonObject {
    map k | k in attributes && k !in exclude :: attributes[k]
  }

  /**
   * StateAttributes.shared_attrs_bytes_from_event: `{}` for a removed state;
   * otherwise the encoding of the non-excluded attributes (strip-null encoder
   * on PostgreSQL), replaced by `{}` when it is over MaxStateAttrsBytes.
   */
  function SharedAttrsBytesFromEvent(
    e: Event,
    entitySources: map<string, map<string, string>>,
    excludeByDomain: map<string, set<string>>,
    allDomainExclude: set<string>,
    dialect: Option<Dialect>,
    c: JsonCodec): (r: Outcome<Bytes>)
    requires NewStateWellTyped(e.data)
    ensures NewState(e.data).None? ==> r == Returned(EmptyObjectBytes)
    ensures r.Raised? <==>
      NewState(e.data).Some? &&
      ExcludedAttrs(NewState(e.data).value.entityId, entitySources, excludeByDomain, allDomainExclude).Raised?
    ensures r.Returned? ==> |r.value| <= MaxStateAttrsBytes
    ensures r.Returned? && NewState(e.data).Some? ==>
      var s := NewState(e.data).value;
      var excluded := ExcludedAttrs(s.entityId, entitySources, excludeByDomain, allDomainExclude).value;
      var encoded := Encode(c, dialect, AsData(KeptAttributes(s.attributes, excluded)));
      (|encoded| <= MaxStateAttrsBytes ==> r.value == encoded) &&
      (|encoded| > MaxStateAttrsBytes ==> r.value == EmptyObjectBytes)
  {
    match NewState(e.data)
    case None => Returned(EmptyObjectBytes)
    case Some(s) =>
      match ExcludedAttrs(s.entityId, entitySources, excludeByDomain, allDomainExclude)
      case Raised(err) => Raised(err)
      case Returned(excluded) =>
        var bytesResult := Encode(c, dialect, AsData(KeptAttributes(s.attributes, excluded)));
        if |bytesResult| > MaxStateAttrsBytes then Returned(EmptyObjectBytes) else Returned(bytesResult)
  }

  /** StateAttributes.to_native: the decoded attributes, or `{}` when there are none or they fail to decode. */
  function ToNative(row: StateAttributes, c: JsonCodec): (r: JsonValue)
    ensures row.sharedAttrs.None? ==> r == JObject(map[])
    ensures row.sharedAttrs.Some? && c.loads(row.sharedAttrs.value).None? ==> r == JObject(map[])
    ensures row.sharedAttrs.Some? && c.loads(row.sharedAttrs.value).Some? ==> r == c.loads(row.sharedAttrs.value).value
  {
    match row.sharedAttrs
    case None => JObject(map[])
    case Some(shared) =>
      match c.loads(shared)
      case None => JObject(map[])
      case Some(v) => v
  }

  /**
   * Storing a state's attributes and reading them back (off PostgreSQL, with
   * a codec that round-trips) gives exactly the non-excluded attributes, or
   * `{}` when their encoding is over the cap or the state was removed.
   */
  lemma RoundTrip(
    e: Event,
    entitySources: map<string, map<string, string>>,
    excludeByDomain: map<string, set<string>>,
    allDomainExclude: set<string>,
    dialect: Option<Dialect>,
    c: JsonCodec)
    requires NewStateWellTyped(e.data)
    requires RoundTrips(c) && DecodesEmptyObject(c)
    requires dialect != Some(PostgreSQL)
    ensures var r := SharedAttrsBytesFromEvent(e, entitySources, excludeByDomain, allDomainExclude, dialect, c);
      r.Returned? ==>
        var back := ToNative(StateAttributes(None, None, Some(r.value)), c);
        && (NewState(e.data).None? ==> back == JObject(map[]))
        && (NewState(e.data).Some? ==>
              var s := NewState(e.data).value;
              var kept := KeptAttributes(s.attributes, ExcludedAttrs(s.entityId, entitySources, excludeByDomain, allDomainExclude).value);
              && (|c.dumps(AsData(kept))| <= MaxStateAttrsBytes ==> back == JObject(kept))
              && (|c.dumps(AsData(kept))| > MaxStateAttrsBytes ==> back == JObject(map[])))
  {
    var r := SharedAttrsBytesFromEvent(e, entitySources, excludeByDomain, allDomainExclude, dialect, c);
    if r.Returned? && NewState(e.data).Some? {
      var s := NewState(e.data).value;
      var kept := KeptAttributes(s.attributes, ExcludedAttrs(s.entityId, entitySources, excludeByDomain, allDomainExclude).value);
      assert c.loads(c.dumps(AsData(kept))) == Some(JObject(kept));
    }
  }

  /**
   * An attribute a domain excludes (a siren's available_tones, say) is not
   * stored for that domain's entities, while one that nothing excludes (its
   * friendly_name) is.
   */
  lemma DomainExclusion(
    s: State,
    objectId: string,
    domain: string,
    excluded: string,
    keptKey: string,
    entitySources: map<string, map<string, string>>,
    excludeByDomain: map<string, set<string>>,
    allDomainExclude: set<string>)
    requires '.' !in domain && s.entityId == domain + "." + objectId
    requires domain in excludeByDomain && excluded in excludeByDomain[domain]
    requires keptKey in s.attributes && keptKey !in allDomainExclude
    requires forall d :: d in excludeByDomain ==> keptKey !in excludeByDomain[d]
    requires ExcludedAttrs(s.entityId, entitySources, excludeByDomain, allDomainExclude).Returned?
    ensures var kept := KeptAttributes(s.attributes, ExcludedAttrs(s.entityId, entitySources, excludeByDomain, allDomainExclude).value);
      excluded !in kept && keptKey in kept && kept[keptKey] == s.attributes[keptKey]
  {
    DomainOfEntityId(domain, objectId);
  }

  /**
   * What an excluded attribute holds never matters: giving an excluded key
   * any value in the new state leaves the stored bytes unchanged.
   */
  lemma ExcludedValueIrrelevant(
    e: Event,
    key: string,
    v: JsonValue,
    entitySources: map<string, map<string, string>>,
    excludeByDomain: map<string, set<string>>,
    allDomainExclude: set<string>,
    dialect: Option<Dialect>,
    c: JsonCodec)
    requires NewStateWellTyped(e.data) && NewState(e.data).Some?
    requires var s := NewState(e.data).value;
      var excluded := ExcludedAttrs(s.entityId, entitySources, excludeByDomain, allDomainExclude);
      excluded.Returned? && key in excluded.value
    ensures var s := NewState(e.data).value;
      var e' := e.(data := e.data["new_state" := StateData(s.(attributes := s.attributes[key := v]))]);
      && NewStateWellTyped(e'.data)
      && SharedAttrsBytesFromEvent(e', entitySources, excludeByDomain, allDomainExclude, dialect, c)
         == SharedAttrsBytesFromEvent(e, entitySources, excludeByDomain, allDomainExclude, dialect, c)
  {
    var s := NewState(e.data).value;
    var s' := s.(attributes := s.attributes[key := v]);
    var e' := e.(data := e.data["new_state" := StateData(s')]);
    assert NewState(e'.data) == Some(s');
    var excluded := ExcludedAttrs(s.entityId, entitySources, excludeByDomain, allDomainExclude).value;
    assert KeptAttributes(s'.attributes, excluded) == KeptAttributes(s.attributes, excluded);
  }
}

=== FILE: states.dfy ===
/** The `states` table row and its conversions (class States). */
module StatesTable {
  import opened Wrappers
  import opened Native
  import opened Helpers
  import opened Origin

  /**
   * A `states` row. The text columns attributes, context_id, context_user_id
   * and context_parent_id, and the datetimes last_changed and last_updated,
   * are legacy: new rows leave them null. A null last_changed_ts means
   * "the same as last_updated_ts".
   */
  datatype States = States(
    stateId: Option<int>,
    entityId: Option<string>,
    state: Option<string>,
    attributes: Option<Bytes>,
    eventId: Option<int>,
    lastChanged: Option<Instant>,
    lastChangedTs: Option<Timestamp>,
    lastUpdated: Option<Instant>,
    lastUpdatedTs: Option<Timestamp>,
    oldStateId: Option<int>,
    attributesId: Option<int>,
    contextId: Option<string>,
    contextUserId: Option<string>,
    contextParentId: Option<string>,
    originIdx: Option<int>,
    contextIdBin: Option<Bytes>,
    contextUserIdBin: Option<Bytes>,
    contextParentIdBin: Option<Bytes>)

  /** Every legacy column of the row is null. */
  predicate LegacyColumnsNull(row: States) {
    && row.attributes.None?
    && row.lastUpdated.None?
    && row.lastChanged.None?
    && row.contextId.None?
    && row.contextUserId.None?
    && row.contextParentId.None?
  }

  /** The stored last_changed_ts: null when it equals last_updated. */
  function CompressLastChanged(lastChanged: Instant, lastUpdated: Instant): (ts: Option<Timestamp>)
    ensures ts.None? <==> lastChanged == lastUpdated
    ensures ts.Some? ==> FromTs(ts.value) == lastChanged
  {
    if lastUpdated == lastChanged then None else Some(ToTs(lastChanged))
  }

  /**
   * The (last_changed, last_updated) pair to_native reads from the two
   * timestamp columns: a missing last_updated_ts reads as 0, and last_changed
   * is the stored one when there is one, else last_updated.
   */
  function ExpandTimes(lastChangedTs: Option<Timestamp>, lastUpdatedTs: Option<Timestamp>): (times: (Instant, Instant))
    ensures times.1 == FromTs(if lastUpdatedTs.Some? then lastUpdatedTs.value else 0)
    ensures lastChangedTs.None? ==> times.0 == times.1
    ensures lastChangedTs.Some? ==> times.0 == FromTs(lastChangedTs.value)
  {
    if lastChangedTs.None? || lastChangedTs == lastUpdatedTs then
      var t := FromTs(lastUpdatedTs.GetOr(0)); (t, t)
    else
      (FromTs(lastChangedTs.GetOr(0)), FromTs(lastUpdatedTs.GetOr(0)))
  }

  /** The compression of last_changed loses nothing: every pair reads back as written. */
  lemma LastChangedRoundTrip(lastChanged: Instant, lastUpdated: Instant)
    ensures ExpandTimes(CompressLastChanged(lastChanged, lastUpdated), Some(ToTs(lastUpdated))) == (lastChanged, lastUpdated)
  {
  }

  /** The `entity_id` string of a state_changed event's data. */
  function EntityIdOf(data: map<string, DataValue>): string
    requires StateChangedWellTyped(data) && "entity_id" in data
  {
    data["entity_id"].json.s
  }

  /**
   * States.from_event: the row that records a state_changed event. Data
   * without `entity_id` raises KeyError; a removed state (no new_state) is
   * stored as the empty state at the event's fire time.
   */
  function FromEvent(e: Event, ids: IdCodec): (r: Outcome<States>)
    requires StateChangedWellTyped(e.data)
    ensures r.Raised? <==> "entity_id" !in e.data
    ensures r.Raised? ==> r.error == KeyError("entity_id")
    ensures r.Returned? ==>
      var row := r.value;
      && LegacyColumnsNull(row)
      // keys are assigned by the database and the recorder later
      && row.stateId.None? && row.eventId.None? && row.oldStateId.None? && row.attributesId.None?
      && row.entityId == Some(EntityIdOf(e.data))
      && NativeOrigin(None, row.originIdx) == Returned(e.origin)
      && row.originIdx.Some? && 0 <= row.originIdx.value < |EventOriginOrder|
      && EventOriginOrder[row.originIdx.value] == e.origin
      && row.contextIdBin == ids.ulidToBytes(e.context.id)
      && row.contextUserIdBin == ids.uuidHexToBytes(e.context.userId)
      && row.contextParentIdBin == ids.ulidToBytes(e.context.parentId)
      && row.state.Some? && row.lastUpdatedTs.Some?
    ensures r.Returned? && NewState(e.data).None? ==>
      && r.value.state == Some("")
      && FromTs(r.value.lastUpdatedTs.value) == e.timeFired
      && r.value.lastChangedTs.None?
    ensures r.Returned? && NewState(e.data).Some? ==>
      var s := NewState(e.data).value;
      && r.value.state == Some(s.state)
      && FromTs(r.value.lastUpdatedTs.value) == s.lastUpdated
      && (r.value.lastChangedTs.None? <==> s.lastChanged == s.lastUpdated)
      && (r.value.lastChangedTs.Some? ==> FromTs(r.value.lastChangedTs.value) == s.lastChanged)
  {
    OriginRoundTrip(e.origin);
    if "entity_id" !in e.data then Raised(KeyError("entity_id"))
    else
      var dbstate := States(
        stateId := None,
        entityId := Some(EntityIdOf(e.data)),
        state := None,
        attributes := None,
        eventId := None,
        lastChanged := None,
        lastChangedTs := None,
        lastUpdated := None,
        lastUpdatedTs := None,
        oldStateId := None,
        attributesId := None,
        contextId := None,
        contextUserId := None,
        contextParentId := None,
        originIdx := OriginIdx(e.origin),
        contextIdBin := ids.ulidToBytes(e.context.id),
        contextUserIdBin := ids.uuidHexToBytes(e.context.userId),
        contextParentIdBin := ids.ulidToBytes(e.context.parentId));
      match NewState(e.data)
      case None =>
        Returned(dbstate.(state := Some(""), lastUpdatedTs := Some(ToTs(e.timeFired)), lastChangedTs := None))
      case Some(s) =>
        Returned(dbstate.(
          state := Some(s.state),
          lastUpdatedTs := Some(ToTs(s.lastUpdated)),
          lastChangedTs := CompressLastChanged(s.lastChanged, s.lastUpdated)))
  }

  /** The row's legacy attributes text is present, non-empty and fails to decode. */
  predicate AttributesUndecodable(row: States, c: JsonCodec) {
    row.attributes.Some? && row.attributes.value != [] && c.loadsObject(row.attributes.value).None?
  }

  /**
   * States.to_native: the native state a row stands for. A decode failure of
   * the legacy attributes is caught and gives None; the State constructor
   * may raise (entity id rejected, or without a dot once lower-cased); a
   * null state column reads as the state "None".
   */
  function ToNative(row: States, c: JsonCodec, ids: IdCodec, validate: bool, rules: EntityIdRules): (r: Outcome<Option<State>>)
    ensures r == Returned(None) <==> AttributesUndecodable(row, c)
    ensures r.Raised? <==>
      && !AttributesUndecodable(row, c)
      && ((validate && !rules.valid(row.entityId.GetOr(""))) || '.' !in rules.lower(row.entityId.GetOr("")))
    ensures r.Returned? && r.value.Some? ==>
      var st := r.value.value;
      && st.entityId == rules.lower(if row.entityId.Some? then row.entityId.value else "")
      && st.state == (if row.state.Some? then row.state.value else "None")
      && (row.attributes.None? || row.attributes.value == [] ==> st.attributes == map[])
      && (row.attributes.Some? && row.attributes.value != [] ==> c.loadsObject(row.attributes.value) == Some(st.attributes))
      && st.lastUpdated == FromTs(if row.lastUpdatedTs.Some? then row.lastUpdatedTs.value else 0)
      && (row.lastChangedTs.None? ==> st.lastChanged == st.lastUpdated)
      && (row.lastChangedTs.Some? ==> st.lastChanged == FromTs(row.lastChangedTs.value))
      && st.context == Context(ids.bytesToUlid(row.contextIdBin), ids.bytesToUuidHex(row.contextUserId), ids.bytesToUlid(row.contextParentIdBin))
  {
    var context := RowContext(ids, row.contextIdBin, row.contextUserId, row.contextParentIdBin);
    match DecodeObjectColumn(c, row.attributes)
    case None => Returned(None)
    case Some(attrs) =>
      var (lastChanged, lastUpdated) := ExpandTimes(row.lastChangedTs, row.lastUpdatedTs);
      match NewNativeState(validate, rules, row.entityId.GetOr(""), row.state, attrs, lastChanged, lastUpdated, context)
      case Raised(err) => Raised(err)
      case Returned(st) => Returned(Some(st))
  }

  /**
   * Writing a state change and reading the row back gives the data's
   * entity id lower-cased, the new state's state, last_changed and last_updated;
   * attributes are empty (they live in state_attributes). The State
   * constructor must accept the entity id.
   */
  lemma RoundTrip(e: Event, c: JsonCodec, ids: IdCodec, validate: bool, rules: EntityIdRules)
    requires StateChangedWellTyped(e.data) && "entity_id" in e.data
    requires '.' in rules.lower(EntityIdOf(e.data)) && (!validate || rules.valid(EntityIdOf(e.data)))
    requires NewState(e.data).Some?
    ensures FromEvent(e, ids).Returned?
    ensures var st := NewState(e.data).value;
      ToNative(FromEvent(e, ids).value, c, ids, validate, rules) == Returned(Some(State(
        rules.lower(EntityIdOf(e.data)), st.state, map[], st.lastChanged, st.lastUpdated,
        Context(ids.bytesToUlid(ids.ulidToBytes(e.context.id)),
                ids.bytesToUuidHex(None),
                ids.bytesToUlid(ids.ulidToBytes(e.context.parentId))))))
  {
    var st := NewState(e.data).value;
    LastChangedRoundTrip(st.lastChanged, st.lastUpdated);
  }

  /** A removed state reads back as the empty state, changed and updated at the event's fire time. */
  lemma RemovedRoundTrip(e: Event, c: JsonCodec, ids: IdCodec, validate: bool, rules: EntityIdRules)
    requires StateChangedWellTyped(e.data) && "entity_id" in e.data
    requires '.' in rules.lower(EntityIdOf(e.data)) && (!validate || rules.valid(EntityIdOf(e.data)))
    requires NewState(e.data).None?
    ensures FromEvent(e, ids).Returned?
    ensures var r := ToNative(FromEvent(e, ids).value, c, ids, validate, rules);
      && r.Returned? && r.value.Some?
      && r.value.value.state == ""
      && r.value.value.lastChanged == e.timeFired
      && r.value.value.lastUpdated == e.timeFired
  {
  }

  /** States' user id is lost as the events' is: written to the binary column, read from the text one. */
  lemma UserIdLost(e: Event, c: JsonCodec, ids: IdCodec, validate: bool, rules: EntityIdRules)
    requires StateChangedWellTyped(e.data) && "entity_id" in e.data
    requires '.' in rules.lower(EntityIdOf(e.data)) && (!validate || rules.valid(EntityIdOf(e.data)))
    requires ids.bytesToUuidHex(None) == None
    ensures FromEvent(e, ids).Returned?
    ensures FromEvent(e, ids).value.contextUserIdBin == ids.uuidHexToBytes(e.context.userId)
    ensures var r := ToNative(FromEvent(e, ids).value, c, ids, validate, rules);
      r.Returned? && r.value.Some? && r.value.value.context.userId == None
  {
  }
}

=== FILE: wrappers.dfy ===
/** Option, and the outcome of a Python call that may raise. */
module Wrappers {

  /** A value that may be absent (Python's `None`). */
  datatype Option<+T> = None | Some(value: T) {

    /** Python's `x or default` on a value that is either present or None. */
    function GetOr(default: T): T {
      match this
      case Some(v) => v
      case None => default
    }
  }

  /** An exception that leaves a converter without being caught there. */
  datatype PyError =
    | KeyError(key: string)
    | ValueError
    | IndexError
    | InvalidEntityFormatError

  /** A call either returns a value or raises an exception to its caller. */
  datatype Outcome<+T> = Returned(value: T) | Raised(error: PyError)
}
